=== FILE: README.md ===
# TYPO3 setup configuration, modelled in Dafny

This project models the configuration step of the TYPO3 distribution's setup
handling (`SetupConfiguration::run` and its helpers). The step has four parts:

- **Env-file parsing** (`getParsedEnvFileValues`). An env file is read into the environment. Its result is what the read added or changed in `$_ENV` compared with a snapshot. Each of those names is then unset again from `$_ENV`, `$_SERVER` and the process environment.
- **Prompt pass.** For every `TYPO3_INSTALL_PROMPT_*` variable of the install file (but not its `_DEFAULT` sibling), the user is asked until the answer is not null. Every `${NAME}` placeholder in the dist template is replaced by that answer.
- **Settings** (`getSettings`). The canonical settings are deep-merged (`array_replace_recursive`) over the legacy `LocalConfiguration.php`. The legacy file is used only if it does not carry the marker `Auto generated by helhum/typo3-config-handling`.
- **Path-value pass.** Every `TYPO3__*` variable of the dist file names a settings path: `TYPO3__DB__host` names `DB/host`. When the path resolves, each `NAME=""` in the env text becomes `NAME="value"` and the path is taken out of the settings. The remaining settings are stored again inside a `<?php return` … `;` wrapper.

Modules:

| file | module | models |
|---|---|---|
| `optional.dfy` | `Optional` | the `Option` type |
| `text.dfy` | `Text` | `strpos`, `str_replace` with one search string, `explode`/`implode` on one character |
| `settings.dfy` | `Settings` | the settings tree; path lookup and removal; `array_replace_recursive`; `getSettings`; the `storeSettings` text |
| `dotenv.dfy` | `DotEnv` | `array_diff_assoc` on environment arrays; the environment as a class; `getParsedEnvFileValues` |
| `prompt.dfy` | `Prompt` | the prompt pass: a specification fold, and the loops proved against it |
| `resolve.dfy` | `Resolve` | the path-value pass: a specification fold, and the loop proved against it |
| `setup.dfy` | `Setup` | `run` as a whole |

Each loop of the source is a method proved equal to a specification function:
- `Prompt.AskForSettings` is proved equal to `PromptPass`, with the re-ask loop in `Prompt.AskUntilAnswered`.
- `Resolve.FillFromSettings` is proved equal to `PathValuePass`.
- `DotEnv.Environment.UnsetAll` is proved equal to `Without`.

The lemmas about these properties are stated on the functions.

The model follows the script on these points:
- The re-ask loop repeats only on a null answer. An empty string is accepted.
- The env-file result holds new variables and also pre-existing ones whose value changed. A changed variable is then unset, not restored.
- Removing a path never removes parent arrays that became empty.
- `storeSettings` writes no marker. The marker guard only recognises a legacy file that another tool marked.
- Only `TYPO3_INSTALL_PROMPT_*` variables are asked for. A placeholder of any other name stays in the text.

## Model

| member | source | states |
|---|---|---|
| `Text.IndexOf` | packages/typo3-setup-handling/src/Composer/InstallerScript/SetupConfiguration.php:151 | a found index is an occurrence of the search string |
| `Text.IndexOfFirst` | packages/typo3-setup-handling/src/Composer/InstallerScript/SetupConfiguration.php:151 | the index found is the first occurrence; none is found only when there is no occurrence at all |
| `Text.ReplaceAllAbsent` | packages/typo3-setup-handling/src/Composer/InstallerScript/SetupConfiguration.php:104 | `str_replace` (`Text.ReplaceAll`) leaves a text without the search string unchanged |
| `Text.ReplaceAllInserts` | packages/typo3-setup-handling/src/Composer/InstallerScript/SetupConfiguration.php:104 | a text holding the search string holds the replacement afterwards |
| `Text.ReplaceAllRemoves` | packages/typo3-setup-handling/src/Composer/InstallerScript/SetupConfiguration.php:93 | with a non-empty replacement sharing no character with the search string, no occurrence is left |
| `Text.ReplaceAllAfter` | packages/typo3-setup-handling/src/Composer/InstallerScript/SetupConfiguration.php:102 | `str_replace` (`Text.ReplaceAll`) works left to right without rescanning: when no occurrence starts before a given one, the text before it is kept, it is replaced, and the rest is processed on its own |
| `Text.Split` | packages/typo3-setup-handling/src/Composer/InstallerScript/SetupConfiguration.php:103 | exploding a path gives at least one piece, no piece holds the delimiter, and joining the pieces gives the path back |
| `Text.SplitJoin` | packages/typo3-setup-handling/src/Composer/InstallerScript/SetupConfiguration.php:103 | exploding a join of delimiter-free pieces gives the pieces back |
| `Settings.GetPathConcat` | packages/typo3-setup-handling/src/Composer/InstallerScript/SetupConfiguration.php:103 | walking a path in two parts walks the second part from where the first ends, and misses when the first does |
| `Settings.StringPathAddressesSegments` | packages/typo3-setup-handling/src/Composer/InstallerScript/SetupConfiguration.php:103-105 | `getValueByPath` and `removeByPath` on a non-empty `/`-joined path (`Settings.GetValueByPath`, `Settings.RemoveByPath`) address its segments one key per level |
| `Settings.RemoveClearsBelow` | packages/typo3-setup-handling/src/Composer/InstallerScript/SetupConfiguration.php:105 | after a removal nothing at or below the removed path resolves |
| `Settings.RemoveKeepsOthers` | packages/typo3-setup-handling/src/Composer/InstallerScript/SetupConfiguration.php:105 | a removal leaves every path that is neither above nor below it as it was |
| `Settings.RemoveKeepsAncestors` | packages/typo3-setup-handling/src/Composer/InstallerScript/SetupConfiguration.php:105 | a removal leaves every array above the removed path in place, even one that became empty |
| `Settings.RemoveKeepsMissing` | packages/typo3-setup-handling/src/Composer/InstallerScript/SetupConfiguration.php:105 | a removal never makes a missing path resolve |
| `Settings.RemoveKeepsLeaves` | packages/typo3-setup-handling/src/Composer/InstallerScript/SetupConfiguration.php:105 | every scalar found after a removal was at the same path before |
| `Settings.Merge` | packages/typo3-setup-handling/src/Composer/InstallerScript/SetupConfiguration.php:158 | an overriding scalar replaces whatever the base holds; two arrays merge to an array holding the keys of both |
| `Settings.MergeKeepsOverLeaf` | packages/typo3-setup-handling/src/Composer/InstallerScript/SetupConfiguration.php:158 | a canonical scalar at any depth wins over the legacy layer |
| `Settings.MergeKeepsBaseOnly` | packages/typo3-setup-handling/src/Composer/InstallerScript/SetupConfiguration.php:158 | where the canonical layer has nothing at a path and no scalar above it, the merge shows the legacy layer's content there |
| `Settings.MergeIntoEmpty` | packages/typo3-setup-handling/src/Composer/InstallerScript/SetupConfiguration.php:148-158 | merging into the empty legacy layer gives the canonical settings back |
| `Settings.MergeExample` | packages/typo3-setup-handling/src/Composer/InstallerScript/SetupConfiguration.php:158 | arrays under the same key are merged leaf by leaf: keys of both kept, the canonical value wins |
| `Settings.LegacyLayer` | packages/typo3-setup-handling/src/Composer/InstallerScript/SetupConfiguration.php:148-154 | the legacy layer is always an array |
| `Settings.LoadSettingsPrecedence` | packages/typo3-setup-handling/src/Composer/InstallerScript/SetupConfiguration.php:146-159 | `getSettings` (`Settings.LoadSettings`): a canonical scalar wins at any depth; where the canonical settings have nothing at a path and no scalar above it, the legacy layer shows through |
| `Settings.MarkerGuard` | packages/typo3-setup-handling/src/Composer/InstallerScript/SetupConfiguration.php:149-158 | an absent legacy file, or one that carries the marker, leaves the canonical settings exactly as they are |
| `Settings.StoreTextRoundTrip` | packages/typo3-setup-handling/src/Composer/InstallerScript/SetupConfiguration.php:164-171 | the stored text is the exported array in a fixed header and trailer, and the export can be recovered from it |
| `DotEnv.Get` | packages/typo3-setup-handling/src/Composer/InstallerScript/SetupConfiguration.php:138 | an array lookup finds a value exactly when the name is in the array, and that pair is in the array |
| `DotEnv.GetUnique` | packages/typo3-setup-handling/src/Composer/InstallerScript/SetupConfiguration.php:138 | in an array with unique keys the lookup finds every entry's own value |
| `DotEnv.EnvDiff` | packages/typo3-setup-handling/src/Composer/InstallerScript/SetupConfiguration.php:138 | an entry is in the diff exactly when it is in the post-read array and the snapshot lacks the name or has another value |
| `DotEnv.EnvDiffConcat` | packages/typo3-setup-handling/src/Composer/InstallerScript/SetupConfiguration.php:138 | the diff keeps the order of the post-read array: the diff of a concatenation is the concatenation of the diffs |
| `DotEnv.Without` | packages/typo3-setup-handling/src/Composer/InstallerScript/SetupConfiguration.php:141 | an entry survives exactly when its name is not unset |
| `DotEnv.WithoutKeepsUnique` | packages/typo3-setup-handling/src/Composer/InstallerScript/SetupConfiguration.php:141 | unsetting keeps keys unique |
| `DotEnv.WithoutTwice` | packages/typo3-setup-handling/src/Composer/InstallerScript/SetupConfiguration.php:139-142 | unsetting names one after another is unsetting them all at once |
| `DotEnv.IsolatedAfterRevert` | packages/typo3-setup-handling/src/Composer/InstallerScript/SetupConfiguration.php:135-143 | after the revert, `$_ENV` holds exactly the post-read entries that the snapshot already held with the same value |
| `DotEnv.Environment.Unset` | packages/typo3-setup-handling/src/Composer/InstallerScript/SetupConfiguration.php:140-141 | one name leaves `$_ENV`, `$_SERVER` and the process environment; nothing else changes, and `$_ENV` keeps unique keys |
| `DotEnv.Environment.UnsetAll` | packages/typo3-setup-handling/src/Composer/InstallerScript/SetupConfiguration.php:139-142 | every name of the diff is unset from all three stores, and `$_ENV` keeps unique keys |
| `DotEnv.Environment.ParseEnvFile` | packages/typo3-setup-handling/src/Composer/InstallerScript/SetupConfiguration.php:130-144 | a missing file gives nothing and changes nothing; otherwise the result is the diff against the snapshot, and its names are gone from all three stores |
| `Prompt.DefaultFor` | packages/typo3-setup-handling/src/Composer/InstallerScript/SetupConfiguration.php:89 | `getenv(name . '_DEFAULT') ?: null`: a default is offered exactly when the variable is set and truthy, and then it is its value |
| `Prompt.QuestionShowsOffered` | packages/typo3-setup-handling/src/Composer/InstallerScript/SetupConfiguration.php:91 | the question text (`Prompt.Question`) tells which default is offered: different offers give different questions |
| `Prompt.FirstAnswer` | packages/typo3-setup-handling/src/Composer/InstallerScript/SetupConfiguration.php:90-92 | the answer is the first non-null reply; every reply before it is null; there is none only when all replies are null |
| `Prompt.FirstAnswerAt` | packages/typo3-setup-handling/src/Composer/InstallerScript/SetupConfiguration.php:90-92 | a non-null reply after only null ones is the answer |
| `Prompt.FirstAnswerNone` | packages/typo3-setup-handling/src/Composer/InstallerScript/SetupConfiguration.php:90-92 | with only null replies there is no answer |
| `Prompt.PromptKeys` | packages/typo3-setup-handling/src/Composer/InstallerScript/SetupConfiguration.php:86-88 | the filter (`Prompt.IsPromptKey`, over `Text.StartsWith` and `Text.EndsWith`) selects exactly the variables named `TYPO3_INSTALL_PROMPT_*` and not ending in `_DEFAULT` |
| `Prompt.AskUntilAnswered` | packages/typo3-setup-handling/src/Composer/InstallerScript/SetupConfiguration.php:90-92 | the re-ask loop stops at the first non-null reply, having consumed it and every null before it |
| `Prompt.AskForSettings` | packages/typo3-setup-handling/src/Composer/InstallerScript/SetupConfiguration.php:85-95 | the loops compute exactly the prompt pass (`Prompt.PromptPass`, one `Prompt.PromptStep` per variable) over the install-file variables |
| `Prompt.PassSkipsOthers` | packages/typo3-setup-handling/src/Composer/InstallerScript/SetupConfiguration.php:85-88 | the pass over all variables equals the pass over the prompt keys alone |
| `Prompt.NoPromptKeysNoChange` | packages/typo3-setup-handling/src/Composer/InstallerScript/SetupConfiguration.php:85-95 | without prompt keys the text, the replies and the question log are unchanged |
| `Prompt.PassAccounting` | packages/typo3-setup-handling/src/Composer/InstallerScript/SetupConfiguration.php:89-92 | replies are consumed in order, one question per reply; every question belongs to a prompt key and offers its `_DEFAULT` sibling, which is never falsy |
| `Prompt.PassCompletes` | packages/typo3-setup-handling/src/Composer/InstallerScript/SetupConfiguration.php:85-95 | with enough non-null replies the pass finishes, asking once per prompt key |
| `Prompt.StepFills` | packages/typo3-setup-handling/src/Composer/InstallerScript/SetupConfiguration.php:93 | a present placeholder receives the answer; a suitable answer leaves no placeholder; a template without it is unchanged |
| `Prompt.EmptyAnswerAccepted` | packages/typo3-setup-handling/src/Composer/InstallerScript/SetupConfiguration.php:90-93 | a null reply is asked again, and an empty reply is accepted and fills the placeholder with nothing |
| `Prompt.PassSameDefaults` | packages/typo3-setup-handling/src/Composer/InstallerScript/SetupConfiguration.php:85-95 | the pass depends on the environment only through the defaults it offers |
| `Resolve.FillFromSettings` | packages/typo3-setup-handling/src/Composer/InstallerScript/SetupConfiguration.php:99-109 | the loop computes exactly the path-value pass (`Resolve.PathValuePass`, one `Resolve.ResolveStep` per variable) over the dist-file variables |
| `Resolve.SeparatorAfterSegment` | packages/typo3-setup-handling/src/Composer/InstallerScript/SetupConfiguration.php:102 | a well-formed segment holds no start of a `__` separator |
| `Resolve.SeparatorsToSlashes` | packages/typo3-setup-handling/src/Composer/InstallerScript/SetupConfiguration.php:102 | replacing `__` by `/` turns segments joined with `__` into segments joined with `/` |
| `Resolve.PrefixDeleted` | packages/typo3-setup-handling/src/Composer/InstallerScript/SetupConfiguration.php:102 | the leading `TYPO3__` is deleted and the rest is kept |
| `Resolve.ConfigPathRoundTrip` | packages/typo3-setup-handling/src/Composer/InstallerScript/SetupConfiguration.php:100-103 | the config path (`Resolve.ConfigPath`) of `TYPO3__` plus segments joined with `__` explodes back into exactly those segments |
| `Resolve.StepEffect` | packages/typo3-setup-handling/src/Composer/InstallerScript/SetupConfiguration.php:100-107 | non-path keys and misses change nothing; a hit removes the path even when the assignment was absent; a present empty assignment now holds the value as PHP concatenation writes it (`Settings.ValueText`) |
| `Resolve.PassConcat` | packages/typo3-setup-handling/src/Composer/InstallerScript/SetupConfiguration.php:99 | variables are processed in file order |
| `Resolve.StepKeepsMissing` | packages/typo3-setup-handling/src/Composer/InstallerScript/SetupConfiguration.php:103-105 | a step never makes a missing path resolve |
| `Resolve.PassKeepsMissing` | packages/typo3-setup-handling/src/Composer/InstallerScript/SetupConfiguration.php:99-109 | the pass never makes a missing path resolve |
| `Resolve.PassClearsEveryPathKey` | packages/typo3-setup-handling/src/Composer/InstallerScript/SetupConfiguration.php:99-109 | after the pass, no path key of the dist file resolves in the stored settings |
| `Resolve.PassKeepsLeaves` | packages/typo3-setup-handling/src/Composer/InstallerScript/SetupConfiguration.php:99-109 | the pass only takes settings out: every scalar left was there before at the same path |
| `Resolve.EarlierRemovalShadows` | packages/typo3-setup-handling/src/Composer/InstallerScript/SetupConfiguration.php:99-109 | once a path is taken out, a later variable at or below it misses and changes nothing |
| `Setup.ParsedValues` | packages/typo3-setup-handling/src/Composer/InstallerScript/SetupConfiguration.php:130-138 | a missing file gives nothing; every value comes from the post-read environment |
| `Setup.Run` | packages/typo3-setup-handling/src/Composer/InstallerScript/SetupConfiguration.php:74-113 | the run yields `Setup.Expected`: the install file is parsed and unset, the prompt reads its defaults from what is left of the process environment, then the settings are loaded and the dist file's pass fills the env text; afterwards `$_ENV`, `$_SERVER` and the process environment lack each env file's new and changed variables |
| `Setup.InstallDefaultsHidden` | packages/typo3-setup-handling/src/Composer/InstallerScript/SetupConfiguration.php:81-89 | as written, a `_DEFAULT` value that the install file introduced or changed is unset before the prompt reads it, so no default is offered |
| `Setup.InstallDefaultOffered` | packages/typo3-setup-handling/src/Composer/InstallerScript/SetupConfiguration.php:86-89 | with the corrected lookup, a truthy `_DEFAULT` value from the install file is offered as the default |
| `Setup.CorrectionOnlyForInstallDefaults` | packages/typo3-setup-handling/src/Composer/InstallerScript/SetupConfiguration.php:81-89 | the corrected run (`Setup.ExpectedCorrected`) differs from the run as written only when the install file introduces or changes a `_DEFAULT` variable |
| `Setup.ProcessDefaultKept` | packages/typo3-setup-handling/src/Composer/InstallerScript/SetupConfiguration.php:89 | where the install file has no `_DEFAULT` sibling, the process environment's value is offered, as written |
| `Setup.NoInstallFileNoQuestions` | packages/typo3-setup-handling/src/Composer/InstallerScript/SetupConfiguration.php:80-109 | without an install file nothing is asked, and the env text is the template filled from the settings |

## Left out

- File access (`file_get_contents`, `file_put_contents`, `file_exists`, `require`) is not modelled. File contents and existence are inputs, and the two written files are the outcome of `Setup.Run`. A missing dist template makes `file_get_contents` at line 80 warn. Composer's error handler turns the warning into an `\ErrorException`, so the run aborts before any env file is parsed or anything is written. The model takes the template text as an input and does not capture that abort.
- The env-file reader (`DotEnvReader` over `Dotenv`) is a foreign library. Its result, `$_ENV` after the read, is an input. Its effect on `$_SERVER` and the process environment is not modelled; only the unsetting afterwards is.
- `ArrayUtility::arrayExport` is a foreign library. Only the `<?php return` / `;` wrapper around its output is modelled.
- The console (`ask`) is an oracle: a finite list of replies. The source loops for as long as the user gives null answers. The model instead stops with `Waiting` when the list runs out.
- `Settings.GetValueByPath` and `Settings.RemoveByPath`: `ArrayUtility` is not part of this model. They have only the semantics the script relies on: a lookup fails on an empty path, a missing key or a scalar in the way, and a removal deletes the entry it addresses. A removal of a missing path returns the tree unchanged, whereas the library throws; the script only removes a path it has just read.
- `Settings.ValueText`: scalars are held in the string form PHP's concatenation gives them. An array becomes `"Array"` in the model. The script runs under Composer, whose error handler turns the array-to-string notice into an `\ErrorException`. The `catch (\RuntimeException)` at line 106 does not catch it, so the script stops before `.env` is written. The model does not capture that abort: where a `TYPO3__` variable addresses an array, it writes `"Array"` and carries on.
- Console messages, `shouldRun`, the constructor's path building and the `settings:extract`/`settings:dump` commands are process glue and are not modelled.
- `Settings.LoadSettings`: both settings files are assumed to exist and to return arrays: `conf/settings.php` always, the legacy `LocalConfiguration.php` whenever it is read. A missing `conf/settings.php` makes the `require` at line 156 fatal. A file that returns something other than an array makes `array_replace_recursive` at line 158 fail. Either way the run aborts before anything is written. The model does not capture that abort: `LegacyLayer`, `LoadSettings` and `Setup.Run` require arrays instead.
- `Settings.Tree`: a settings array is a map, so the order of its keys is not modelled. `array_replace_recursive` appends keys found only in the canonical settings after the legacy ones, and that order shapes the text of the stored settings file; nothing else in the script depends on it.
- `Text.ReplaceAllRemoves` holds only for answers that share no character with the placeholder. `str_replace` can build a new placeholder out of an answer and the text around it.

## Findings

| source | as written | input that shows it | evidently intended | confidence | as-written member | corrected member |
|---|---|---|---|---|---|---|
| packages/typo3-setup-handling/src/Composer/InstallerScript/SetupConfiguration.php:81-89 | the install file's variables, its `_DEFAULT` siblings included, are unset (lines 139-142) before `getenv($envName . '_DEFAULT')` runs | an install file with `TYPO3_INSTALL_PROMPT_DB_NAME="Database name"` and `TYPO3_INSTALL_PROMPT_DB_NAME_DEFAULT="typo3"`, in a process without either: the question offers no default | the `_DEFAULT` value the install file defines is offered (the filter at line 87 exists only because install files carry such siblings); `Setup.ExpectedCorrected` is `run` with that lookup, and `Setup.CorrectionOnlyForInstallDefaults` shows it changes nothing else | medium, not executed | `Setup.InstallDefaultsHidden` | `Setup.InstallDefaultOffered` |

=== FILE: dotenv.dfy ===
/**
 * Reading an env file without leaving its variables behind
 * (`getParsedEnvFileValues`). The reader itself is foreign: what it leaves
 * in `$_ENV` is an input. The model takes a snapshot, diffs the environment
 * after the read against it, and unsets every name in the diff.
 */
module DotEnv {
  import opened Optional

  /** One `NAME=value` pair of an environment array. */
  datatype Entry = Entry(name: string, value: string)

  function NamesOf(es: seq<Entry>): set<string> {
    set e | e in es :: e.name
  }

  /** A PHP array has each key once. */
  predicate UniqueNames(es: seq<Entry>) {
    forall i, j :: 0 <= i < j < |es| ==> es[i].name != es[j].name
  }

  /** The value stored under `name`, if any. */
  function Get(es: seq<Entry>, name: string): (r: Option<string>)
    ensures r.Some? <==> name in NamesOf(es)
    ensures r.Some? ==> Entry(name, r.value) in es
  {
    if es == [] then None
    else if es[0].name == name then Some(es[0].value)
    else Get(es[1..], name)
  }

  /** In an array with unique keys, `Get` finds the value of every entry. */
  lemma {:induction false} GetUnique(es: seq<Entry>, e: Entry)
    requires UniqueNames(es) && e in es
    ensures Get(es, e.name) == Some(e.value)
  {
    if es[0] != e {
      assert es[0].name != e.name by {
        var j :| 0 <= j < |es| && es[j] == e;
        assert j != 0;
      }
      assert e in es[1..] by { assert es == [es[0]] + es[1..]; }
      GetUnique(es[1..], e);
    }
  }

  /**
   * `array_diff_assoc($after, $before)`: the entries of `after`, in their
   * order, whose name is not in `before` or is there with another value.
   */
  function EnvDiff(after: seq<Entry>, before: seq<Entry>): (d: seq<Entry>)
    ensures forall e :: e in d <==> e in after && Get(before, e.name) != Some(e.value)
    ensures |d| <= |after|
  {
    if after == [] then []
    else
      var rest := EnvDiff(after[1..], before);
      assert forall e :: e in after <==> e == after[0] || e in after[1..] by {
        assert after == [after[0]] + after[1..];
      }
      if Get(before, after[0].name) != Some(after[0].value) then [after[0]] + rest else rest
  }

  /**
   * The diff keeps the order of `after`: the diff of a concatenation is the
   * concatenation of the diffs, so the entries come out in file order.
   */
  lemma {:induction false} EnvDiffConcat(a: seq<Entry>, b: seq<Entry>, before: seq<Entry>)
    ensures EnvDiff(a + b, before) == EnvDiff(a, before) + EnvDiff(b, before)
    decreases |a|
  {
    if a == [] {
      assert a + b == b;
    } else {
      assert (a + b)[0] == a[0];
      assert (a + b)[1..] == a[1..] + b;
      EnvDiffConcat(a[1..], b, before);
    }
  }

  /** The entries of `es` whose names are not in `names`, in their order. */
  function Without(es: seq<Entry>, names: set<string>): (r: seq<Entry>)
    ensures forall e :: e in r <==> e in es && e.name !in names
  {
    if es == [] then []
    else
      var rest := Without(es[1..], names);
      assert forall e :: e in es <==> e == es[0] || e in es[1..] by {
        assert es == [es[0]] + es[1..];
      }
      if es[0].name in names then rest else [es[0]] + rest
  }

  /** Unsetting keys keeps the keys of an array unique. */
  lemma {:induction false} WithoutKeepsUnique(es: seq<Entry>, names: set<string>)
    requires UniqueNames(es)
    ensures UniqueNames(Without(es, names))
  {
    if es != [] {
      WithoutKeepsUnique(es[1..], names);
      var rest := Without(es[1..], names);
      if es[0].name !in names {
        assert es[0].name !in NamesOf(rest) by {
          forall e | e in rest ensures e.name != es[0].name {
            var j :| 0 <= j < |es[1..]| && es[1..][j] == e;
            assert es[j + 1] == e;
          }
        }
      }
    }
  }

  /** Removing names one after another is removing them all at once. */
  lemma {:induction false} WithoutTwice(es: seq<Entry>, a: set<string>, b: set<string>)
    ensures Without(Without(es, a), b) == Without(es, a + b)
  {
    if es != [] {
      WithoutTwice(es[1..], a, b);
    }
  }

  /**
   * Isolation: after the names of the diff are unset, what the read left
   * behind is exactly what the snapshot already held with the same value.
   * Nothing the file introduced or changed stays visible.
   */
  lemma IsolatedAfterRevert(after: seq<Entry>, before: seq<Entry>)
    requires UniqueNames(after)
    ensures forall e :: e in Without(after, NamesOf(EnvDiff(after, before))) <==>
      e in after && Get(before, e.name) == Some(e.value)
  {
    var d := EnvDiff(after, before);
    forall e | e in after
      ensures e.name in NamesOf(d) <==> Get(before, e.name) != Some(e.value)
    {
      if e.name in NamesOf(d) {
        var x :| x in d && x.name == e.name;
        GetUnique(after, x);
        GetUnique(after, e);
      }
    }
  }

  /**
   * The process environment as PHP exposes it: `$_ENV` (an ordered array),
   * `$_SERVER`, and the variables `getenv`/`putenv` see.
   */
  class Environment {
    var vars: seq<Entry>
    var server: map<string, string>
    var process: map<string, string>

    ghost predicate Valid()
      reads this
    {
      UniqueNames(vars)
    }

    constructor (vars: seq<Entry>, server: map<string, string>, process: map<string, string>)
      requires UniqueNames(vars)
      ensures Valid()
      ensures this.vars == vars && this.server == server && this.process == process
    {
      this.vars := vars;
      this.server := server;
      this.process := process;
    }

    /** `putenv(name)`, `unset($_ENV[name])`, `unset($_SERVER[name])`. */
    method Unset(name: string)
      requires Valid()
      modifies this
      ensures Valid()
      ensures vars == Without(old(vars), {name})
      ensures server == old(server) - {name}
      ensures process == old(process) - {name}
    {
      process := process - {name};
      WithoutKeepsUnique(vars, {name});
      vars := Without(vars, {name});
      server := server - {name};
    }

    /**
     * `getParsedEnvFileValues`: a missing file yields nothing and changes
     * nothing. Otherwise `afterRead` is `$_ENV` as the reader leaves it; the
     * result is its diff against the snapshot taken before the read, and every
     * name in that diff is then unset from `$_ENV`, `$_SERVER` and the process
     * environment, so a pre-existing variable the file changed is removed,
     * not restored.
     */
    method ParseEnvFile(fileExists: bool, afterRead: seq<Entry>) returns (values: seq<Entry>)
      requires Valid() && UniqueNames(afterRead)
      modifies this
      ensures Valid()
      ensures !fileExists ==> values == [] && vars == old(vars)
      ensures fileExists ==> values == EnvDiff(afterRead, old(vars))
      ensures fileExists ==> vars == Without(afterRead, NamesOf(values))
      ensures server == old(server) - NamesOf(values)
      ensures process == old(process) - NamesOf(values)
    {
      if !fileExists {
        values := [];
        assert NamesOf(values) == {};
        assert server == server - {} && process == process - {};
        return;
      }
      var backup := vars;
      vars := afterRead;
      values := EnvDiff(vars, backup);
      UnsetAll(values);
    }

    /** Unsets the name of every entry of `es`, one after another. */
    method UnsetAll(es: seq<Entry>)
      requires Valid()
      modifies this
      ensures Valid()
      ensures vars == Without(old(vars), NamesOf(es))
      ensures server == old(server) - NamesOf(es)
      ensures process == old(process) - NamesOf(es)
    {
      ghost var vars0, server0, process0 := vars, server, process;
      var i := 0;
      NamesOfEmpty(es);
      WithoutNothing(vars);
      while i < |es|
        invariant 0 <= i <= |es|
        invariant Valid()
        invariant vars == Without(vars0, NamesOf(es[..i]))
        invariant server == server0 - NamesOf(es[..i])
        invariant process == process0 - NamesOf(es[..i])
      {
        UnsetStep(es, i, vars0, server0, process0);
        Unset(es[i].name);
        i := i + 1;
      }
      assert es[..i] == es;
    }
  }

  /** Unsetting one more name of `es` extends the names unset so far by it. */
  lemma UnsetStep(es: seq<Entry>, i: nat, vars: seq<Entry>, server: map<string, string>, process: map<string, string>)
    requires i < |es|
    ensures Without(Without(vars, NamesOf(es[..i])), {es[i].name}) == Without(vars, NamesOf(es[..i + 1]))
    ensures server - NamesOf(es[..i]) - {es[i].name} == server - NamesOf(es[..i + 1])
    ensures process - NamesOf(es[..i]) - {es[i].name} == process - NamesOf(es[..i + 1])
  {
    NamesOfPrefix(es, i);
    WithoutTwice(vars, NamesOf(es[..i]), {es[i].name});
  }

  lemma NamesOfEmpty(es: seq<Entry>)
    ensures NamesOf(es[..0]) == {}
  {
    assert es[..0] == [];
  }

  lemma NamesOfPrefix(es: seq<Entry>, i: nat)
    requires i < |es|
    ensures NamesOf(es[..i + 1]) == NamesOf(es[..i]) + {es[i].name}
  {
    assert es[..i + 1] == es[..i] + [es[i]];
  }

  lemma {:induction false} WithoutNothing(es: seq<Entry>)
    ensures Without(es, {}) == es
  {
    if es != [] {
      WithoutNothing(es[1..]);
      assert es == [es[0]] + es[1..];
    }
  }
}

=== FILE: optional.dfy ===
/** The usual Some/None wrapper, used for lookups that can miss. */
module Optional {

  datatype Option<+T> = None | Some(value: T)

}

=== FILE: prompt.dfy ===
/**
 * The prompt pass of the setup script: for every install-file variable that
 * asks for a value, the user is asked until an answer comes back, and every
 * `${NAME}` placeholder in the env template is replaced by that answer.
 *
 * The console is an oracle: `replies` lists, in order, what successive calls
 * of `ask` return (`None` for PHP's null). When the list runs out before an
 * answer arrives, the pass is still waiting and yields `None`.
 */
module Prompt {
  import opened Optional
  import opened Text
  import opened DotEnv

  const AskPrefix := "TYPO3_INSTALL_PROMPT_"
  const DefaultSuffix := "_DEFAULT"

  /** A variable the user is asked for; its `_DEFAULT` sibling is not. */
  predicate IsPromptKey(name: string) {
    StartsWith(name, AskPrefix) && !EndsWith(name, DefaultSuffix)
  }

  /** The placeholder an answer replaces in the template. */
  function Placeholder(name: string): string {
    "${" + name + "}"
  }

  /** PHP's truth value of a string: only "" and "0" are false. */
  predicate Truthy(s: string) {
    s != "" && s != "0"
  }

  /** `getenv(name . '_DEFAULT') ?: null`. */
  function DefaultFor(process: map<string, string>, name: string): (r: Option<string>)
    ensures r.Some? ==> name + DefaultSuffix in process && r.value == process[name + DefaultSuffix] && Truthy(r.value)
    ensures r.None? <==> name + DefaultSuffix !in process || !Truthy(process[name + DefaultSuffix])
  {
    var key := name + DefaultSuffix;
    if key in process && Truthy(process[key]) then Some(process[key]) else None
  }

  /** The question text: the variable's value is the caption, a default is shown in parentheses. */
  function Question(caption: string, offered: Option<string>): string {
    "<comment>" + caption + (if offered.Some? then " (" + offered.value + ") :" else ":") + "</comment> "
  }

  /** The question tells which default is offered, if any: different offers give different questions. */
  lemma QuestionShowsOffered(caption: string, o1: Option<string>, o2: Option<string>)
    requires Question(caption, o1) == Question(caption, o2)
    ensures o1 == o2
  {
    var k := |"<comment>" + caption|;
    assert Question(caption, o1)[k] == if o1.Some? then ' ' else ':';
    assert Question(caption, o2)[k] == if o2.Some? then ' ' else ':';
    if o1.Some? {
      var q := Question(caption, o1);
      assert |o1.value| == |o2.value|;
      assert q[k + 2..k + 2 + |o1.value|] == o1.value;
      assert Question(caption, o2)[k + 2..k + 2 + |o2.value|] == o2.value;
    }
  }

  /** One call of `ask`: the question shown and the default offered. */
  datatype Asked = Asked(question: string, offered: Option<string>)

  /** Where the first non-null reply is, if there is one. */
  function FirstAnswer(replies: seq<Option<string>>): (r: Option<nat>)
    ensures r.Some? ==> r.value < |replies| && replies[r.value].Some?
    ensures r.Some? ==> forall j :: 0 <= j < r.value ==> replies[j].None?
    ensures r.None? ==> forall j :: 0 <= j < |replies| ==> replies[j].None?
    decreases |replies|
  {
    if replies == [] then None
    else if replies[0].Some? then Some(0)
    else
      match FirstAnswer(replies[1..])
      case None => None
      case Some(k) => Some(k + 1)
  }

  /** A non-null reply with only null replies before it is the first answer. */
  lemma {:induction false} FirstAnswerAt(replies: seq<Option<string>>, k: nat)
    requires k < |replies| && replies[k].Some?
    requires forall j :: 0 <= j < k ==> replies[j].None?
    ensures FirstAnswer(replies) == Some(k)
  {
    if k > 0 {
      FirstAnswerAt(replies[1..], k - 1);
    }
  }

  /** Without a non-null reply there is no answer. */
  lemma {:induction false} FirstAnswerNone(replies: seq<Option<string>>)
    requires forall j :: 0 <= j < |replies| ==> replies[j].None?
    ensures FirstAnswer(replies) == None
    decreases |replies|
  {
    if replies != [] {
      FirstAnswerNone(replies[1..]);
    }
  }

  /** The template text, the replies not yet consumed, and the questions asked so far. */
  datatype Progress = Progress(text: string, replies: seq<Option<string>>, asked: seq<Asked>)

  /** `n` copies of the same question. */
  function Repeat(a: Asked, n: nat): (r: seq<Asked>)
    ensures |r| == n && forall j :: 0 <= j < n ==> r[j] == a
  {
    seq(n, _ => a)
  }

  /**
   * One install-file variable. A prompt key asks until the first non-null
   * reply and replaces its placeholder by that reply; any other key changes
   * nothing.
   */
  function PromptStep(p: Progress, e: Entry, process: map<string, string>): Option<Progress> {
    if !IsPromptKey(e.name) then Some(p)
    else
      var d := DefaultFor(process, e.name);
      match FirstAnswer(p.replies)
      case None => None
      case Some(k) =>
        Some(Progress(ReplaceAll(p.text, Placeholder(e.name), p.replies[k].value),
                      p.replies[k + 1..],
                      p.asked + Repeat(Asked(Question(e.value, d), d), k + 1)))
  }

  /** The pass over the install-file variables, in file order. */
  function PromptPass(entries: seq<Entry>, p: Progress, process: map<string, string>): Option<Progress>
    decreases |entries|
  {
    if entries == [] then Some(p)
    else
      match PromptStep(p, entries[0], process)
      case None => None
      case Some(q) => PromptPass(entries[1..], q, process)
  }

  /** The install-file variables that are prompt keys, in order. */
  function PromptKeys(entries: seq<Entry>): (r: seq<Entry>)
    ensures forall e :: e in r <==> e in entries && IsPromptKey(e.name)
    ensures |r| <= |entries|
    decreases |entries|
  {
    if entries == [] then []
    else
      var rest := PromptKeys(entries[1..]);
      assert forall e :: e in entries <==> e == entries[0] || e in entries[1..] by {
        assert entries == [entries[0]] + entries[1..];
      }
      if IsPromptKey(entries[0].name) then [entries[0]] + rest else rest
  }

  /**
   * The `do … while ($answer === null)` loop: calls `ask` until a reply is
   * not null. Every call consumes one reply; an empty string ends the loop
   * like any other non-null reply. `answer` is `None` when the replies run
   * out first.
   */
  method AskUntilAnswered(replies: seq<Option<string>>, start: nat) returns (answer: Option<string>, next: nat)
    requires start <= |replies|
    ensures start <= next <= |replies|
    ensures answer.None? <==> FirstAnswer(replies[start..]).None?
    ensures answer.Some? ==> FirstAnswer(replies[start..]) == Some(next - 1 - start) && answer == replies[next - 1]
  {
    next := start;
    answer := None;
    while answer.None?
      invariant start <= next <= |replies|
      invariant answer.None? ==> forall j :: start <= j < next ==> replies[j].None?
      invariant answer.Some? ==> start < next && answer == replies[next - 1]
      invariant answer.Some? ==> forall j :: start <= j < next - 1 ==> replies[j].None?
      decreases |replies| - next
    {
      if next == |replies| {
        FirstAnswerNone(replies[start..]);
        return;
      }
      answer := replies[next];
      next := next + 1;
    }
    FirstAnswerAt(replies[start..], next - 1 - start);
  }

  /** `run`, lines 85-95: asks for every prompt key of the install file and fills its placeholders. */
  method AskForSettings(entries: seq<Entry>, template: string, process: map<string, string>,
                        replies: seq<Option<string>>) returns (r: Option<Progress>)
    ensures r == PromptPass(entries, Progress(template, replies, []), process)
  {
    var text := template;
    var next := 0;
    var asked: seq<Asked> := [];
    var i := 0;
    while i < |entries|
      invariant 0 <= i <= |entries| && 0 <= next <= |replies|
      invariant PromptPass(entries, Progress(template, replies, []), process)
             == PromptPass(entries[i..], Progress(text, replies[next..], asked), process)
    {
      var e := entries[i];
      PassAt(entries, i, Progress(text, replies[next..], asked), process);
      if IsPromptKey(e.name) {
        var fallback := DefaultFor(process, e.name);
        var start := next;
        var answer;
        answer, next := AskUntilAnswered(replies, start);
        if answer.None? {
          return None;
        }
        assert replies[start..][next - start..] == replies[next..];
        asked := asked + Repeat(Asked(Question(e.value, fallback), fallback), next - start);
        text := ReplaceAll(text, Placeholder(e.name), answer.value);
      }
      i := i + 1;
    }
    assert entries[i..] == [];
    r := Some(Progress(text, replies[next..], asked));
  }

  /** The pass from the `i`-th variable on is its step followed by the pass from the next one. */
  lemma PassAt(entries: seq<Entry>, i: nat, p: Progress, process: map<string, string>)
    requires i < |entries|
    ensures PromptPass(entries[i..], p, process) ==
      match PromptStep(p, entries[i], process)
      case None => None
      case Some(q) => PromptPass(entries[i + 1..], q, process)
  {
    assert entries[i..][1..] == entries[i + 1..];
  }

  /** Two environments that offer the same default for every variable give the same pass. */
  lemma {:induction false} PassSameDefaults(entries: seq<Entry>, p: Progress, d1: map<string, string>, d2: map<string, string>)
    requires forall n :: DefaultFor(d1, n) == DefaultFor(d2, n)
    ensures PromptPass(entries, p, d1) == PromptPass(entries, p, d2)
    decreases |entries|
  {
    if entries != [] {
      assert DefaultFor(d1, entries[0].name) == DefaultFor(d2, entries[0].name);
      match PromptStep(p, entries[0], d1)
      case None =>
      case Some(q) => PassSameDefaults(entries[1..], q, d1, d2);
    }
  }

  /** Only prompt keys matter: the pass over all variables is the pass over the prompt keys. */
  lemma {:induction false} PassSkipsOthers(entries: seq<Entry>, p: Progress, process: map<string, string>)
    ensures PromptPass(entries, p, process) == PromptPass(PromptKeys(entries), p, process)
    decreases |entries|
  {
    if entries != [] {
      match PromptStep(p, entries[0], process)
      case None =>
      case Some(q) =>
        PassSkipsOthers(entries[1..], q, process);
        if IsPromptKey(entries[0].name) {
          assert PromptKeys(entries)[1..] == PromptKeys(entries[1..]);
        }
    }
  }

  /** An install file without prompt keys leaves the template, the replies and the log as they are. */
  lemma {:induction false} NoPromptKeysNoChange(entries: seq<Entry>, p: Progress, process: map<string, string>)
    requires forall e :: e in entries ==> !IsPromptKey(e.name)
    ensures PromptPass(entries, p, process) == Some(p)
    decreases |entries|
  {
    if entries != [] {
      assert entries[0] in entries;
      NoPromptKeysNoChange(entries[1..], p, process);
    }
  }

  /**
   * Every reply consumed is one `ask` call, made for a prompt key with the
   * question built from its value and its `_DEFAULT` sibling as the offered
   * default; an offered default is never falsy.
   */
  lemma {:induction false} PassAccounting(entries: seq<Entry>, p: Progress, process: map<string, string>)
    requires PromptPass(entries, p, process).Some?
    ensures var q := PromptPass(entries, p, process).value;
      |q.replies| <= |p.replies| && p.replies[|p.replies| - |q.replies|..] == q.replies &&
      |q.asked| == |p.asked| + (|p.replies| - |q.replies|) && q.asked[..|p.asked|] == p.asked &&
      forall j :: |p.asked| <= j < |q.asked| ==>
        (q.asked[j].offered.Some? ==> Truthy(q.asked[j].offered.value)) &&
        exists e :: e in entries && IsPromptKey(e.name) &&
          q.asked[j] == Asked(Question(e.value, DefaultFor(process, e.name)), DefaultFor(process, e.name))
    decreases |entries|
  {
    if entries != [] {
      var e0 := entries[0];
      var p1 := PromptStep(p, e0, process).value;
      PassAccounting(entries[1..], p1, process);
      var q := PromptPass(entries, p, process).value;
      assert q == PromptPass(entries[1..], p1, process).value;
      assert e0 in entries;
      forall e | e in entries[1..] ensures e in entries {
      }
      if IsPromptKey(e0.name) {
        var k := FirstAnswer(p.replies).value;
        assert p1.replies == p.replies[k + 1..];
        assert p1.asked[..|p.asked|] == p.asked;
        assert q.asked[..|p1.asked|] == p1.asked;
        assert p.replies[|p.replies| - |q.replies|..] == p1.replies[|p1.replies| - |q.replies|..];
        forall j | |p.asked| <= j < |p1.asked|
          ensures q.asked[j] == Asked(Question(e0.value, DefaultFor(process, e0.name)), DefaultFor(process, e0.name))
        {
          assert q.asked[j] == p1.asked[j];
        }
      }
    }
  }

  /**
   * With enough non-null replies the pass finishes, and asks exactly once per
   * prompt key.
   */
  lemma {:induction false} PassCompletes(entries: seq<Entry>, p: Progress, process: map<string, string>)
    requires forall j :: 0 <= j < |p.replies| ==> p.replies[j].Some?
    requires |PromptKeys(entries)| <= |p.replies|
    ensures PromptPass(entries, p, process).Some?
    ensures |PromptPass(entries, p, process).value.asked| == |p.asked| + |PromptKeys(entries)|
    decreases |entries|
  {
    if entries != [] {
      var e0 := entries[0];
      if IsPromptKey(e0.name) {
        FirstAnswerAt(p.replies, 0);
        assert PromptKeys(entries)[1..] == PromptKeys(entries[1..]);
      }
      var p1 := PromptStep(p, e0, process).value;
      PassCompletes(entries[1..], p1, process);
    }
  }

  /**
   * One prompt key: a placeholder that occurs receives the answer; when the
   * answer is not empty and shares no character with the placeholder, no
   * placeholder is left; a template without the placeholder is unchanged.
   */
  lemma StepFills(p: Progress, e: Entry, process: map<string, string>)
    requires IsPromptKey(e.name) && PromptStep(p, e, process).Some?
    ensures FirstAnswer(p.replies).Some?
    ensures var answer := p.replies[FirstAnswer(p.replies).value].value;
      var pat := Placeholder(e.name);
      var text := PromptStep(p, e, process).value.text;
      (Contains(p.text, pat) ==> Contains(text, answer)) &&
      (!Contains(p.text, pat) ==> text == p.text) &&
      (|answer| > 0 && (forall c :: c in answer ==> c !in pat) ==> !Contains(text, pat))
  {
    var answer := p.replies[FirstAnswer(p.replies).value].value;
    var pat := Placeholder(e.name);
    assert PromptStep(p, e, process).value.text == ReplaceAll(p.text, pat, answer);
    if Contains(p.text, pat) {
      ReplaceAllInserts(p.text, pat, answer);
    } else {
      ReplaceAllAbsent(p.text, pat, answer);
    }
    if |answer| > 0 && (forall c :: c in answer ==> c !in pat) {
      ReplaceAllRemoves(p.text, pat, answer);
    }
  }

  /**
   * A null reply makes `ask` repeat; an empty string is an answer. A null
   * reply followed by an empty one costs two calls and fills the placeholder
   * with nothing.
   */
  lemma EmptyAnswerAccepted(p: Progress, e: Entry, process: map<string, string>, later: seq<Option<string>>)
    requires IsPromptKey(e.name) && p.replies == [None, Some("")] + later
    ensures var d := DefaultFor(process, e.name);
      PromptStep(p, e, process) ==
        Some(Progress(ReplaceAll(p.text, Placeholder(e.name), ""), later,
                      p.asked + [Asked(Question(e.value, d), d), Asked(Question(e.value, d), d)]))
  {
    FirstAnswerAt(p.replies, 1);
    assert p.replies[2..] == later;
    var d := DefaultFor(process, e.name);
    assert Repeat(Asked(Question(e.value, d), d), 2) == [Asked(Question(e.value, d), d), Asked(Question(e.value, d), d)];
  }
}

=== FILE: resolve.dfy ===
/**
 * The path-value pass of the setup script: every dist-file variable named
 * `TYPO3__…` addresses a settings path. When the path resolves, the empty
 * assignment `NAME=""` in the env text receives the value and the path is
 * taken out of the settings, which are stored again afterwards; when it does
 * not resolve, the variable is skipped.
 */
module Resolve {
  import opened Optional
  import opened Text
  import opened Settings
  import opened DotEnv

  const PathPrefix := "TYPO3__"
  const Separator := "__"

  /** A variable that addresses a settings path. */
  predicate IsPathKey(name: string) {
    StartsWith(name, PathPrefix)
  }

  /**
   * `str_replace(['TYPO3__', '__'], ['', '/'], name)`: the pairs are applied
   * one after the other to the whole name, so every `TYPO3__` goes first and
   * every remaining `__` then becomes a slash.
   */
  function ConfigPath(name: string): string {
    ReplaceAll(ReplaceAll(name, PathPrefix, ""), Separator, [Delimiter])
  }

  /** The assignment a dist file leaves empty. */
  function EmptyAssignment(name: string): string {
    name + "=\"\""
  }

  /** The assignment after filling: the value goes between the quotes as it is, unescaped. */
  function Assignment(name: string, value: string): string {
    name + "=\"" + value + "\""
  }

  /** The env text being built, and the settings not yet moved into it. */
  datatype State = State(text: string, settings: Tree)

  /** One dist-file variable (the body of the `foreach` at lines 99-109). */
  function ResolveStep(s: State, e: Entry): State {
    if !IsPathKey(e.name) then s
    else
      var path := ConfigPath(e.name);
      match GetValueByPath(s.settings, path)
      case None => s
      case Some(v) =>
        State(ReplaceAll(s.text, EmptyAssignment(e.name), Assignment(e.name, ValueText(v))),
              RemoveByPath(s.settings, path))
  }

  /** The pass over the dist-file variables, in file order. */
  function PathValuePass(entries: seq<Entry>, s: State): State
    decreases |entries|
  {
    if entries == [] then s else PathValuePass(entries[1..], ResolveStep(s, entries[0]))
  }

  /** `run`, lines 99-109: fills the env text from the settings and takes out what it used. */
  method FillFromSettings(entries: seq<Entry>, template: string, settings: Tree)
    returns (text: string, remaining: Tree)
    ensures State(text, remaining) == PathValuePass(entries, State(template, settings))
  {
    text, remaining := template, settings;
    var i := 0;
    while i < |entries|
      invariant 0 <= i <= |entries|
      invariant PathValuePass(entries, State(template, settings)) == PathValuePass(entries[i..], State(text, remaining))
    {
      var name := entries[i].name;
      assert entries[i..][1..] == entries[i + 1..];
      if IsPathKey(name) {
        var path := ConfigPath(name);
        var value := GetValueByPath(remaining, path);
        if value.Some? {
          text := ReplaceAll(text, EmptyAssignment(name), Assignment(name, ValueText(value.value)));
          remaining := RemoveByPath(remaining, path);
        }
      }
      i := i + 1;
    }
    assert entries[i..] == [];
  }

  /** A piece of a settings path that survives being written with `__` separators. */
  predicate Segment(s: string) {
    Delimiter !in s && !Contains(s, Separator) && !EndsWith(s, "_")
  }

  /** In `x + "__" + y`, a segment `x` holds no start of a separator. */
  lemma SeparatorAfterSegment(x: string, y: string)
    requires Segment(x)
    ensures forall j :: 0 <= j < |x| ==> !OccursAt(x + Separator + y, Separator, j)
  {
    IndexOfFirst(x, Separator);
    var s := x + Separator + y;
    forall j | 0 <= j < |x|
      ensures !OccursAt(s, Separator, j)
    {
      if j + 1 < |x| {
        assert s[j..j + 2] == x[j..j + 2];
        assert !OccursAt(x, Separator, j);
      } else {
        assert x[|x| - 1..] == [x[|x| - 1]];
        assert s[j] == x[|x| - 1];
      }
    }
  }

  /** Replacing the separators of joined segments by slashes joins them with slashes. */
  lemma {:induction false} SeparatorsToSlashes(segs: seq<string>)
    requires |segs| > 0 && forall i :: 0 <= i < |segs| ==> Segment(segs[i])
    ensures ReplaceAll(Join(segs, Separator), Separator, [Delimiter]) == Join(segs, [Delimiter])
    decreases |segs|
  {
    assert Segment(segs[0]);
    if |segs| == 1 {
      ReplaceAllAbsent(segs[0], Separator, [Delimiter]);
    } else {
      var rest := Join(segs[1..], Separator);
      SeparatorAfterSegment(segs[0], rest);
      ReplaceAllAfter(segs[0], rest, Separator, [Delimiter]);
      SeparatorsToSlashes(segs[1..]);
    }
  }

  /** The leading prefix is deleted; a body without another occurrence of it is kept. */
  lemma PrefixDeleted(body: string)
    requires !Contains(body, PathPrefix)
    ensures ReplaceAll(PathPrefix + body, PathPrefix, "") == body
  {
    assert PathPrefix + body == "" + PathPrefix + body;
    ReplaceAllAfter("", body, PathPrefix, "");
    ReplaceAllAbsent(body, PathPrefix, "");
  }

  /**
   * The variable name of a settings path: the prefix, then the path's
   * segments joined with `__`. Its config path explodes back into exactly
   * these segments, provided no segment holds a slash or `__`, none ends in
   * `_`, and `TYPO3__` does not occur after the prefix (every occurrence of
   * it is deleted, not only the leading one).
   */
  lemma ConfigPathRoundTrip(segs: seq<string>)
    requires |segs| > 0 && forall i :: 0 <= i < |segs| ==> Segment(segs[i])
    requires !Contains(Join(segs, Separator), PathPrefix)
    ensures Split(ConfigPath(PathPrefix + Join(segs, Separator)), Delimiter) == segs
  {
    var body := Join(segs, Separator);
    PrefixDeleted(body);
    SeparatorsToSlashes(segs);
    forall i | 0 <= i < |segs| ensures Delimiter !in segs[i] {
      assert Segment(segs[i]);
    }
    SplitJoin(segs, Delimiter);
  }

  /**
   * What one step does. A variable that is not a path key, or whose path does
   * not resolve, changes nothing. A resolved path is absent from the settings
   * afterwards, whether or not the text held the empty assignment; an empty
   * assignment present in the text now holds the value; a text without it is
   * unchanged.
   */
  lemma StepEffect(s: State, e: Entry)
    ensures !IsPathKey(e.name) ==> ResolveStep(s, e) == s
    ensures IsPathKey(e.name) && GetValueByPath(s.settings, ConfigPath(e.name)).None? ==> ResolveStep(s, e) == s
    ensures IsPathKey(e.name) && GetValueByPath(s.settings, ConfigPath(e.name)).Some? ==>
      var v := GetValueByPath(s.settings, ConfigPath(e.name)).value;
      var r := ResolveStep(s, e);
      GetValueByPath(r.settings, ConfigPath(e.name)).None? &&
      (Contains(s.text, EmptyAssignment(e.name)) ==> Contains(r.text, Assignment(e.name, ValueText(v)))) &&
      (!Contains(s.text, EmptyAssignment(e.name)) ==> r.text == s.text)
  {
    var path := ConfigPath(e.name);
    if IsPathKey(e.name) && GetValueByPath(s.settings, path).Some? {
      var v := GetValueByPath(s.settings, path).value;
      var p := Split(path, Delimiter);
      RemoveClearsBelow(s.settings, p, p);
      if Contains(s.text, EmptyAssignment(e.name)) {
        ReplaceAllInserts(s.text, EmptyAssignment(e.name), Assignment(e.name, ValueText(v)));
      } else {
        ReplaceAllAbsent(s.text, EmptyAssignment(e.name), Assignment(e.name, ValueText(v)));
      }
    }
  }

  /** The variables are processed in file order: a pass over two parts is the second pass after the first. */
  lemma {:induction false} PassConcat(a: seq<Entry>, b: seq<Entry>, s: State)
    ensures PathValuePass(a + b, s) == PathValuePass(b, PathValuePass(a, s))
    decreases |a|
  {
    if a == [] {
      assert a + b == b;
    } else {
      assert (a + b)[0] == a[0];
      assert (a + b)[1..] == a[1..] + b;
      PassConcat(a[1..], b, ResolveStep(s, a[0]));
    }
  }

  /** A step never makes a missing path resolve. */
  lemma StepKeepsMissing(s: State, e: Entry, path: string)
    requires GetValueByPath(s.settings, path).None?
    ensures GetValueByPath(ResolveStep(s, e).settings, path).None?
  {
    if IsPathKey(e.name) && path != "" {
      var p := ConfigPath(e.name);
      if p != "" && GetValueByPath(s.settings, p).Some? {
        RemoveKeepsMissing(s.settings, Split(p, Delimiter), Split(path, Delimiter));
      }
    }
  }

  /**
   * After the pass no path key of the dist file resolves any more: a path
   * either missed when its turn came, or was taken out then, and later steps
   * only take out more.
   */
  lemma {:induction false} PassClearsEveryPathKey(entries: seq<Entry>, s: State)
    ensures forall e :: e in entries && IsPathKey(e.name) ==>
      GetValueByPath(PathValuePass(entries, s).settings, ConfigPath(e.name)).None?
    decreases |entries|
  {
    if entries != [] {
      var s1 := ResolveStep(s, entries[0]);
      PassClearsEveryPathKey(entries[1..], s1);
      var e0 := entries[0];
      if IsPathKey(e0.name) {
        StepEffect(s, e0);
        PassKeepsMissing(entries[1..], s1, ConfigPath(e0.name));
      }
      forall e | e in entries && IsPathKey(e.name)
        ensures GetValueByPath(PathValuePass(entries, s).settings, ConfigPath(e.name)).None?
      {
        if e != e0 {
          assert e in entries[1..] by { assert entries == [e0] + entries[1..]; }
        }
      }
    }
  }

  /** The pass never makes a missing path resolve. */
  lemma {:induction false} PassKeepsMissing(entries: seq<Entry>, s: State, path: string)
    requires GetValueByPath(s.settings, path).None?
    ensures GetValueByPath(PathValuePass(entries, s).settings, path).None?
    decreases |entries|
  {
    if entries != [] {
      StepKeepsMissing(s, entries[0], path);
      PassKeepsMissing(entries[1..], ResolveStep(s, entries[0]), path);
    }
  }

  /** The pass only takes settings out: every scalar left was there, at the same path, before. */
  lemma {:induction false} PassKeepsLeaves(entries: seq<Entry>, s: State, p: seq<string>, v: string)
    requires GetPath(PathValuePass(entries, s).settings, p) == Some(Leaf(v))
    ensures GetPath(s.settings, p) == Some(Leaf(v))
    decreases |entries|
  {
    if entries != [] {
      var s1 := ResolveStep(s, entries[0]);
      PassKeepsLeaves(entries[1..], s1, p, v);
      var e := entries[0];
      if IsPathKey(e.name) && ConfigPath(e.name) != "" && GetValueByPath(s.settings, ConfigPath(e.name)).Some? {
        RemoveKeepsLeaves(s.settings, Split(ConfigPath(e.name), Delimiter), p, v);
      }
    }
  }

  /**
   * Order matters: once a variable has taken out a path, a later variable
   * whose path lies at or below it misses, and its assignment stays empty.
   */
  lemma EarlierRemovalShadows(s: State, first: Entry, later: Entry)
    requires IsPathKey(first.name) && IsPathKey(later.name)
    requires GetValueByPath(s.settings, ConfigPath(first.name)).Some?
    requires ConfigPath(later.name) != ""
    requires Split(ConfigPath(first.name), Delimiter) <= Split(ConfigPath(later.name), Delimiter)
    ensures ResolveStep(ResolveStep(s, first), later) == ResolveStep(s, first)
  {
    var p := Split(ConfigPath(first.name), Delimiter);
    RemoveClearsBelow(s.settings, p, Split(ConfigPath(later.name), Delimiter));
  }
}

=== FILE: settings.dfy ===
/**
 * The persisted settings: a nested PHP array whose leaves are scalars.
 * Path access and removal follow what the setup script needs from
 * `ArrayUtility::getValueByPath` and `ArrayUtility::removeByPath`;
 * `Merge` is PHP's `array_replace_recursive`; `LoadSettings` and
 * `StoreText` are `getSettings` and the text `storeSettings` writes.
 */
module Settings {
  import opened Optional
  import opened Text

  /**
   * A settings array. A scalar is held in the string form that PHP's string
   * concatenation gives it, which is the only way the script uses scalars.
   */
  datatype Tree = Leaf(value: string) | Node(children: map<string, Tree>)

  /** Walks down `path`, one key per level; misses when a key is absent or a scalar is in the way. */
  function GetPath(t: Tree, path: seq<string>): Option<Tree>
    decreases path
  {
    if path == [] then Some(t)
    else
      match t
      case Leaf(_) => None
      case Node(m) => if path[0] in m then GetPath(m[path[0]], path[1..]) else None
  }

  /**
   * Deletes the entry `path` addresses. Parent arrays that become empty stay
   * in place. Where `path` does not exist the tree is returned as it is
   * (the library throws there, but the script only removes a path it has
   * just read).
   */
  function RemovePath(t: Tree, path: seq<string>): Tree
    requires path != []
    decreases path
  {
    match t
    case Leaf(_) => t
    case Node(m) =>
      var k := path[0];
      if |path| == 1 then Node(m - {k})
      else if k in m then Node(m[k := RemovePath(m[k], path[1..])])
      else t
  }

  /** The delimiter of a settings path written as one string. */
  const Delimiter := '/'

  /** `getValueByPath($settings, $path)`: fails on an empty path or a missing segment. */
  function GetValueByPath(t: Tree, path: string): Option<Tree> {
    if path == "" then None else GetPath(t, Split(path, Delimiter))
  }

  /** `removeByPath($settings, $path)`. */
  function RemoveByPath(t: Tree, path: string): Tree {
    if path == "" then t else RemovePath(t, Split(path, Delimiter))
  }

  /** The text PHP's string concatenation makes of a value; an array becomes "Array". */
  function ValueText(t: Tree): string {
    match t
    case Leaf(v) => v
    case Node(_) => "Array"
  }

  /** Walking a path in two parts: the second part is walked from where the first one ends. */
  lemma {:induction false} GetPathConcat(t: Tree, p: seq<string>, q: seq<string>)
    ensures GetPath(t, p + q) == if GetPath(t, p).Some? then GetPath(GetPath(t, p).value, q) else None
    decreases p
  {
    if p == [] {
      assert p + q == q;
    } else {
      assert (p + q)[0] == p[0];
      assert (p + q)[1..] == p[1..] + q;
      if t.Node? && p[0] in t.children {
        GetPathConcat(t.children[p[0]], p[1..], q);
      }
    }
  }

  /**
   * A path written as one string addresses its segments: `DB/host` is the key
   * `DB`, then the key `host`, for lookup and for removal alike.
   */
  lemma StringPathAddressesSegments(t: Tree, segs: seq<string>)
    requires |segs| > 0 && forall i :: 0 <= i < |segs| ==> Delimiter !in segs[i]
    requires Join(segs, [Delimiter]) != ""
    ensures GetValueByPath(t, Join(segs, [Delimiter])) == GetPath(t, segs)
    ensures RemoveByPath(t, Join(segs, [Delimiter])) == RemovePath(t, segs)
  {
    SplitJoin(segs, Delimiter);
  }

  /** After a removal nothing at or below the removed path is reachable. */
  lemma {:induction false} RemoveClearsBelow(t: Tree, p: seq<string>, q: seq<string>)
    requires p != [] && p <= q
    ensures GetPath(RemovePath(t, p), q) == None
    decreases p
  {
    match t
    case Leaf(_) =>
    case Node(m) =>
      if |p| > 1 && p[0] in m {
        RemoveClearsBelow(m[p[0]], p[1..], q[1..]);
      }
  }

  /** A removal leaves every path beside the removed one as it was. */
  lemma {:induction false} RemoveKeepsOthers(t: Tree, p: seq<string>, q: seq<string>)
    requires p != [] && !(p <= q) && !(q <= p)
    ensures GetPath(RemovePath(t, p), q) == GetPath(t, q)
    decreases p
  {
    match t
    case Leaf(_) =>
    case Node(m) =>
      if p[0] == q[0] && |p| > 1 && p[0] in m {
        RemoveKeepsOthers(m[p[0]], p[1..], q[1..]);
      }
  }

  /** A removal keeps every array above the removed entry, even one it leaves empty. */
  lemma {:induction false} RemoveKeepsAncestors(t: Tree, p: seq<string>, q: seq<string>)
    requires p != [] && q < p && GetPath(t, q).Some?
    ensures GetPath(RemovePath(t, p), q).Some?
    decreases q
  {
    if q != [] {
      RemoveKeepsAncestors(t.children[q[0]], p[1..], q[1..]);
    }
  }

  /** A removal never makes a missing path reachable. */
  lemma {:induction false} RemoveKeepsMissing(t: Tree, p: seq<string>, q: seq<string>)
    requires p != [] && GetPath(t, q) == None
    ensures GetPath(RemovePath(t, p), q) == None
    decreases p
  {
    match t
    case Leaf(_) =>
    case Node(m) =>
      if |p| > 1 && p[0] in m && q != [] && q[0] == p[0] {
        RemoveKeepsMissing(m[p[0]], p[1..], q[1..]);
      }
  }

  /** Every scalar found after a removal was there, at the same path, before it. */
  lemma {:induction false} RemoveKeepsLeaves(t: Tree, p: seq<string>, q: seq<string>, v: string)
    requires p != [] && GetPath(RemovePath(t, p), q) == Some(Leaf(v))
    ensures GetPath(t, q) == Some(Leaf(v))
    decreases p
  {
    match t
    case Leaf(_) =>
    case Node(m) =>
      if |p| > 1 && p[0] in m && q != [] && q[0] == p[0] {
        RemoveKeepsLeaves(m[p[0]], p[1..], q[1..], v);
      }
  }

  /**
   * `array_replace_recursive(base, over)`: where both sides hold an array the
   * two are merged key by key, a key only `base` has is kept, and everywhere
   * else the value of `over` replaces that of `base`.
   */
  function Merge(base: Tree, over: Tree): (r: Tree)
    ensures over.Leaf? ==> r == over
    ensures base.Node? && over.Node? ==> r.Node? && r.children.Keys == base.children.Keys + over.children.Keys
    decreases over
  {
    if base.Node? && over.Node? then
      var b, o := base.children, over.children;
      Node(map k | k in b.Keys + o.Keys ::
        if k !in o then b[k]
        else if k in b then Merge(b[k], o[k])
        else o[k])
    else over
  }

  /** A scalar of the overriding layer wins over anything the base holds at that path. */
  lemma {:induction false} MergeKeepsOverLeaf(base: Tree, over: Tree, p: seq<string>, v: string)
    requires GetPath(over, p) == Some(Leaf(v))
    ensures GetPath(Merge(base, over), p) == Some(Leaf(v))
    decreases p
  {
    if p != [] && base.Node? && over.Node? {
      var k := p[0];
      if k in base.children {
        MergeKeepsOverLeaf(base.children[k], over.children[k], p[1..], v);
      }
    }
  }

  /** No scalar of `t` lies strictly above the end of `p`. */
  predicate OpenAlong(t: Tree, p: seq<string>)
    decreases p
  {
    p == [] || (t.Node? && (p[0] !in t.children || OpenAlong(t.children[p[0]], p[1..])))
  }

  /**
   * Where the overriding layer has nothing at `p` and no scalar above it, the
   * merge shows exactly what the base has there: keys found only in the base
   * survive, at every depth.
   */
  lemma {:induction false} MergeKeepsBaseOnly(base: Tree, over: Tree, p: seq<string>)
    requires OpenAlong(over, p) && GetPath(over, p) == None
    ensures GetPath(Merge(base, over), p) == GetPath(base, p)
    decreases p
  {
    var k := p[0];
    if base.Node? && k in base.children && k in over.children {
      MergeKeepsBaseOnly(base.children[k], over.children[k], p[1..]);
    }
  }

  /** Merging into an empty array gives the overriding array back. */
  lemma MergeIntoEmpty(over: Tree)
    requires over.Node?
    ensures Merge(Node(map[]), over) == over
  {
    var r := Merge(Node(map[]), over);
    assert r.children == over.children;
  }

  /** The deep-merge case: both layers define `a`, the result merges `a` leaf by leaf. */
  lemma MergeExample()
    ensures
      var legacy := Node(map["a" := Node(map["x" := Leaf("1"), "y" := Leaf("2")])]);
      var canonical := Node(map["a" := Node(map["y" := Leaf("3"), "z" := Leaf("4")])]);
      Merge(legacy, canonical) == Node(map["a" := Node(map["x" := Leaf("1"), "y" := Leaf("3"), "z" := Leaf("4")])])
  {
    var inner := Merge(Node(map["x" := Leaf("1"), "y" := Leaf("2")]), Node(map["y" := Leaf("3"), "z" := Leaf("4")]));
    assert inner.children == map["x" := Leaf("1"), "y" := Leaf("3"), "z" := Leaf("4")];
  }

  /** The text by which a settings file written by this tool can be recognised. */
  const Marker := "Auto generated by helhum/typo3-config-handling"

  /** A PHP settings file: its text, and the array that requiring it returns. */
  datatype SettingsFile = SettingsFile(text: string, values: Tree)

  /** The legacy layer: the legacy file's array, unless the file is absent or carries the marker. */
  function LegacyLayer(legacy: Option<SettingsFile>): (t: Tree)
    requires legacy.Some? ==> legacy.value.values.Node?
    ensures t.Node?
  {
    if legacy.Some? && !Contains(legacy.value.text, Marker) then legacy.value.values else Node(map[])
  }

  /** `getSettings`: the canonical settings merged over the legacy layer. */
  function LoadSettings(legacy: Option<SettingsFile>, canonical: Tree): Tree
    requires canonical.Node?
    requires legacy.Some? ==> legacy.value.values.Node?
  {
    Merge(LegacyLayer(legacy), canonical)
  }

  /**
   * The precedence `getSettings` gives: a canonical scalar wins at any depth,
   * and where the canonical settings have nothing at a path and no scalar
   * above it, the legacy layer shows through.
   */
  lemma LoadSettingsPrecedence(legacy: Option<SettingsFile>, canonical: Tree, p: seq<string>)
    requires canonical.Node?
    requires legacy.Some? ==> legacy.value.values.Node?
    ensures GetPath(canonical, p).Some? && GetPath(canonical, p).value.Leaf? ==>
      GetPath(LoadSettings(legacy, canonical), p) == GetPath(canonical, p)
    ensures OpenAlong(canonical, p) && GetPath(canonical, p).None? ==>
      GetPath(LoadSettings(legacy, canonical), p) == GetPath(LegacyLayer(legacy), p)
  {
    if GetPath(canonical, p).Some? && GetPath(canonical, p).value.Leaf? {
      MergeKeepsOverLeaf(LegacyLayer(legacy), canonical, p, GetPath(canonical, p).value.value);
    }
    if OpenAlong(canonical, p) && GetPath(canonical, p).None? {
      MergeKeepsBaseOnly(LegacyLayer(legacy), canonical, p);
    }
  }

  /** An absent legacy file, or one this tool wrote, contributes nothing. */
  lemma MarkerGuard(legacy: Option<SettingsFile>, canonical: Tree)
    requires canonical.Node?
    requires legacy.Some? ==> legacy.value.values.Node?
    requires legacy.None? || Contains(legacy.value.text, Marker)
    ensures LoadSettings(legacy, canonical) == canonical
  {
    MergeIntoEmpty(canonical);
  }

  const StoreHeader := "<?php return\n"
  const StoreTrailer := ";\n"

  /** The text `storeSettings` writes around the exported array. */
  function StoreText(exported: string): string {
    StoreHeader + exported + StoreTrailer
  }

  /** The exported array inside a stored settings text, if the text has the stored form. */
  function ExportedPart(text: string): Option<string> {
    if |StoreHeader| + |StoreTrailer| <= |text| && StartsWith(text, StoreHeader) && EndsWith(text, StoreTrailer)
    then Some(text[|StoreHeader|..|text| - |StoreTrailer|])
    else None
  }

  /** The wrapper adds a fixed header and trailer and loses nothing of the export. */
  lemma StoreTextRoundTrip(exported: string)
    ensures ExportedPart(StoreText(exported)) == Some(exported)
  {
    var t := StoreText(exported);
    assert t[..|StoreHeader|] == StoreHeader;
    assert t[|t| - |StoreTrailer|..] == StoreTrailer;
    assert t[|StoreHeader|..|t| - |StoreTrailer|] == exported;
  }
}

=== FILE: setup.dfy ===
/**
 * The whole of `run`: parse the install file, ask for its prompt keys, load
 * the settings, parse the dist file, fill the env text from the settings, and
 * hand back the env text and the settings that are stored again.
 *
 * Files are inputs: the dist template's text, whether each env file exists,
 * and `$_ENV` as the foreign reader leaves it after reading that file.
 */
module Setup {
  import opened Optional
  import opened Text
  import opened Settings
  import opened DotEnv
  import opened Prompt
  import opened Resolve

  /** How a run ends: still waiting for an answer, or done with both files' contents. */
  datatype Outcome =
    | Waiting
    | Done(envText: string, stored: Tree, asked: seq<Asked>)

  /** What `getParsedEnvFileValues` returns for an env file, given the snapshot taken before reading it. */
  function ParsedValues(fileExists: bool, afterRead: seq<Entry>, before: seq<Entry>): (values: seq<Entry>)
    ensures !fileExists ==> values == []
    ensures forall e :: e in values ==> e in afterRead
  {
    if fileExists then EnvDiff(afterRead, before) else []
  }

  /** `$_ENV` once the names of `values` are unset again. */
  function VarsAfter(fileExists: bool, afterRead: seq<Entry>, before: seq<Entry>): seq<Entry> {
    if fileExists then Without(afterRead, NamesOf(ParsedValues(fileExists, afterRead, before))) else before
  }

  /** The entries of an environment array as a map; the first entry of a name wins. */
  function MapOf(es: seq<Entry>): (m: map<string, string>)
    ensures m.Keys == NamesOf(es)
    ensures forall n :: n in m ==> Get(es, n) == Some(m[n])
    decreases |es|
  {
    if es == [] then map[]
    else
      assert forall e :: e in es <==> e == es[0] || e in es[1..] by {
        assert es == [es[0]] + es[1..];
      }
      MapOf(es[1..])[es[0].name := es[0].value]
  }

  /**
   * The variables the prompt's `getenv` sees as the code is written: the
   * process environment once the install file's new and changed variables
   * have been unset again.
   */
  function AsWrittenDefaults(process: map<string, string>, installValues: seq<Entry>): map<string, string> {
    process - NamesOf(installValues)
  }

  /**
   * The variables the prompt's `getenv` is meant to see: the process
   * environment as it stood once the install file was read, that is, with the
   * install file's new and changed variables in it.
   */
  function PromptDefaults(process: map<string, string>, installValues: seq<Entry>): map<string, string> {
    process + MapOf(installValues)
  }

  /** The rest of `run` once the install file is parsed, with `defaults` as what `getenv` sees. */
  function Passes(vars: seq<Entry>, installExists: bool, installRead: seq<Entry>,
                  defaults: map<string, string>, template: string, replies: seq<Option<string>>,
                  legacy: Option<SettingsFile>, canonical: Tree,
                  distExists: bool, distRead: seq<Entry>): Outcome
    requires canonical.Node? && (legacy.Some? ==> legacy.value.values.Node?)
  {
    var installValues := ParsedValues(installExists, installRead, vars);
    match PromptPass(installValues, Progress(template, replies, []), defaults)
    case None => Waiting
    case Some(p) =>
      var distValues := ParsedValues(distExists, distRead, VarsAfter(installExists, installRead, vars));
      var s := PathValuePass(distValues, State(p.text, LoadSettings(legacy, canonical)));
      Done(s.text, s.settings, p.asked)
  }

  /** The outcome of `run` as written, on the given inputs, as one value. */
  function Expected(vars: seq<Entry>, process: map<string, string>, template: string,
                    installExists: bool, installRead: seq<Entry>, replies: seq<Option<string>>,
                    legacy: Option<SettingsFile>, canonical: Tree,
                    distExists: bool, distRead: seq<Entry>): Outcome
    requires canonical.Node? && (legacy.Some? ==> legacy.value.values.Node?)
  {
    var installValues := ParsedValues(installExists, installRead, vars);
    Passes(vars, installExists, installRead, AsWrittenDefaults(process, installValues),
           template, replies, legacy, canonical, distExists, distRead)
  }

  /** The outcome of `run` with the corrected default lookup. */
  function ExpectedCorrected(vars: seq<Entry>, process: map<string, string>, template: string,
                             installExists: bool, installRead: seq<Entry>, replies: seq<Option<string>>,
                             legacy: Option<SettingsFile>, canonical: Tree,
                             distExists: bool, distRead: seq<Entry>): Outcome
    requires canonical.Node? && (legacy.Some? ==> legacy.value.values.Node?)
  {
    var installValues := ParsedValues(installExists, installRead, vars);
    Passes(vars, installExists, installRead, PromptDefaults(process, installValues),
           template, replies, legacy, canonical, distExists, distRead)
  }

  /**
   * `run`, lines 74-113, without the console messages and the commands run
   * afterwards: the env text it writes to `.env` and the settings it stores,
   * and the three environment stores once both env files were read and
   * their variables unset again.
   */
  method Run(env: Environment, template: string, installExists: bool, installRead: seq<Entry>,
             replies: seq<Option<string>>, legacy: Option<SettingsFile>, canonical: Tree,
             distExists: bool, distRead: seq<Entry>) returns (out: Outcome)
    requires env.Valid() && UniqueNames(installRead) && UniqueNames(distRead)
    requires canonical.Node? && (legacy.Some? ==> legacy.value.values.Node?)
    modifies env
    ensures env.Valid()
    ensures out == Expected(old(env.vars), old(env.process), template, installExists, installRead,
                            replies, legacy, canonical, distExists, distRead)
    ensures var installValues := ParsedValues(installExists, installRead, old(env.vars));
      out.Waiting? ==>
        env.vars == VarsAfter(installExists, installRead, old(env.vars)) &&
        env.server == old(env.server) - NamesOf(installValues) &&
        env.process == old(env.process) - NamesOf(installValues)
    ensures var installValues := ParsedValues(installExists, installRead, old(env.vars));
      var varsBetween := VarsAfter(installExists, installRead, old(env.vars));
      var distValues := ParsedValues(distExists, distRead, varsBetween);
      out.Done? ==>
        env.vars == VarsAfter(distExists, distRead, varsBetween) &&
        env.server == old(env.server) - NamesOf(installValues) - NamesOf(distValues) &&
        env.process == old(env.process) - NamesOf(installValues) - NamesOf(distValues)
  {
    var installValues := env.ParseEnvFile(installExists, installRead);
    var prompted := AskForSettings(installValues, template, env.process, replies);
    if prompted.None? {
      return Waiting;
    }
    var settings := LoadSettings(legacy, canonical);
    var distValues := env.ParseEnvFile(distExists, distRead);
    var text, remaining := FillFromSettings(distValues, prompted.value.text, settings);
    out := Done(text, remaining, prompted.value.asked);
  }

  /**
   * As written, the prompt reads its default with `getenv` after the install
   * file's variables were unset, so a `_DEFAULT` sibling that the install file
   * introduced or changed is never offered.
   */
  lemma InstallDefaultsHidden(vars: seq<Entry>, process: map<string, string>, installRead: seq<Entry>,
                              name: string, value: string)
    requires Entry(name + DefaultSuffix, value) in installRead
    requires Get(vars, name + DefaultSuffix) != Some(value)
    ensures DefaultFor(AsWrittenDefaults(process, ParsedValues(true, installRead, vars)), name) == None
  {
    assert Entry(name + DefaultSuffix, value) in ParsedValues(true, installRead, vars);
  }

  /** With the corrected lookup, a truthy `_DEFAULT` value from the install file is offered. */
  lemma InstallDefaultOffered(process: map<string, string>, installValues: seq<Entry>,
                              name: string, value: string)
    requires UniqueNames(installValues)
    requires Entry(name + DefaultSuffix, value) in installValues && Truthy(value)
    ensures DefaultFor(PromptDefaults(process, installValues), name) == Some(value)
  {
    GetUnique(installValues, Entry(name + DefaultSuffix, value));
  }

  /** Where the install file defines no `_DEFAULT` sibling, the corrected lookup is the process environment's. */
  lemma ProcessDefaultKept(process: map<string, string>, installValues: seq<Entry>, name: string)
    requires name + DefaultSuffix !in NamesOf(installValues)
    ensures DefaultFor(PromptDefaults(process, installValues), name) == DefaultFor(process, name)
  {
  }

  /** Without an install file nothing is asked, and the env text is the template filled from the settings. */
  lemma NoInstallFileNoQuestions(vars: seq<Entry>, process: map<string, string>, template: string,
                                 installRead: seq<Entry>, replies: seq<Option<string>>,
                                 legacy: Option<SettingsFile>, canonical: Tree,
                                 distExists: bool, distRead: seq<Entry>)
    requires canonical.Node? && (legacy.Some? ==> legacy.value.values.Node?)
    ensures var s := PathValuePass(ParsedValues(distExists, distRead, vars),
                                   State(template, LoadSettings(legacy, canonical)));
      Expected(vars, process, template, false, installRead, replies, legacy, canonical, distExists, distRead)
        == Done(s.text, s.settings, [])
  {
    NoPromptKeysNoChange([], Progress(template, replies, []), AsWrittenDefaults(process, []));
  }

  /**
   * The corrected lookup changes `run` only where the install file introduces
   * or changes a `_DEFAULT` variable: otherwise both give the same outcome.
   */
  lemma CorrectionOnlyForInstallDefaults(vars: seq<Entry>, process: map<string, string>, template: string,
                                         installExists: bool, installRead: seq<Entry>, replies: seq<Option<string>>,
                                         legacy: Option<SettingsFile>, canonical: Tree,
                                         distExists: bool, distRead: seq<Entry>)
    requires canonical.Node? && (legacy.Some? ==> legacy.value.values.Node?)
    requires forall e :: e in ParsedValues(installExists, installRead, vars) ==> !EndsWith(e.name, DefaultSuffix)
    ensures Expected(vars, process, template, installExists, installRead, replies, legacy, canonical, distExists, distRead)
         == ExpectedCorrected(vars, process, template, installExists, installRead, replies, legacy, canonical, distExists, distRead)
  {
    var installValues := ParsedValues(installExists, installRead, vars);
    var d1 := AsWrittenDefaults(process, installValues);
    var d2 := PromptDefaults(process, installValues);
    forall n ensures DefaultFor(d1, n) == DefaultFor(d2, n) {
      var key := n + DefaultSuffix;
      assert key[|key| - |DefaultSuffix|..] == DefaultSuffix;
      assert key !in NamesOf(installValues);
    }
    PassSameDefaults(installValues, Progress(template, replies, []), d1, d2);
  }
}

=== FILE: text.dfy ===
/**
 * The string primitives the setup script relies on: prefix and suffix tests,
 * `strpos`, `str_replace` with one search string, and `explode` on a
 * one-character delimiter, together with the facts about them that the rest
 * of the model uses.
 */
module Text {
  import opened Optional

  predicate StartsWith(s: string, prefix: string) {
    |prefix| <= |s| && s[..|prefix|] == prefix
  }

  predicate EndsWith(s: string, suffix: string) {
    |suffix| <= |s| && s[|s| - |suffix|..] == suffix
  }

  /** `pat` occurs in `s` starting at index `j`. */
  predicate OccursAt(s: string, pat: string, j: int) {
    0 <= j && j + |pat| <= |s| && s[j..j + |pat|] == pat
  }

  /** `strpos`: the first index at which `pat` occurs in `s`, if any. */
  function IndexOf(s: string, pat: string): (r: Option<nat>)
    ensures r.Some? ==> OccursAt(s, pat, r.value)
    decreases |s|
  {
    if |s| < |pat| then None
    else if s[..|pat|] == pat then Some(0)
    else
      match IndexOf(s[1..], pat)
      case None => None
      case Some(i) =>
        assert s[1..][i..i + |pat|] == s[i + 1..i + 1 + |pat|];
        Some(i + 1)
  }

  /** `IndexOf` finds the first occurrence, and finds one whenever there is one. */
  lemma {:induction false} IndexOfFirst(s: string, pat: string)
    ensures IndexOf(s, pat).Some? ==> forall j :: 0 <= j < IndexOf(s, pat).value ==> !OccursAt(s, pat, j)
    ensures IndexOf(s, pat).None? ==> forall j :: !OccursAt(s, pat, j)
    decreases |s|
  {
    if |s| < |pat| {
    } else if s[..|pat|] == pat {
    } else {
      IndexOfFirst(s[1..], pat);
      forall j | 1 <= j
        ensures OccursAt(s, pat, j) <==> OccursAt(s[1..], pat, j - 1)
      {
        if j + |pat| <= |s| {
          assert s[1..][j - 1..j - 1 + |pat|] == s[j..j + |pat|];
        }
      }
    }
  }

  predicate Contains(s: string, pat: string) {
    IndexOf(s, pat).Some?
  }

  /** Whatever satisfies the contract of `IndexOf` is its result. */
  lemma {:induction false} IndexOfIsFirst(s: string, pat: string, k: nat)
    requires OccursAt(s, pat, k)
    requires forall j :: 0 <= j < k ==> !OccursAt(s, pat, j)
    ensures IndexOf(s, pat) == Some(k)
  {
    IndexOfFirst(s, pat);
  }

  /**
   * `str_replace(pat, rep, s)`: the text before the first occurrence of `pat`
   * is kept, that occurrence becomes `rep`, and the search resumes right after
   * it, so replaced text is never searched again. An empty search string
   * leaves the subject unchanged.
   */
  function ReplaceAll(s: string, pat: string, rep: string): string
    decreases |s|
  {
    if |pat| == 0 || IndexOf(s, pat).None? then s
    else
      var i := IndexOf(s, pat).value;
      s[..i] + rep + ReplaceAll(s[i + |pat|..], pat, rep)
  }

  /** Unfolds `ReplaceAll` at a known first occurrence. */
  lemma {:induction false} ReplaceAllAt(s: string, pat: string, rep: string, k: nat)
    requires |pat| > 0 && IndexOf(s, pat) == Some(k)
    ensures ReplaceAll(s, pat, rep) == s[..k] + rep + ReplaceAll(s[k + |pat|..], pat, rep)
  {
  }

  /** A text without the search string is left exactly as it is. */
  lemma {:induction false} ReplaceAllAbsent(s: string, pat: string, rep: string)
    requires !Contains(s, pat)
    ensures ReplaceAll(s, pat, rep) == s
  {
  }

  /** A text that holds the search string holds the replacement afterwards. */
  lemma {:induction false} ReplaceAllInserts(s: string, pat: string, rep: string)
    requires |pat| > 0 && Contains(s, pat)
    ensures Contains(ReplaceAll(s, pat, rep), rep)
  {
    var i := IndexOf(s, pat).value;
    var t := ReplaceAll(s, pat, rep);
    assert t[i..i + |rep|] == rep;
    assert OccursAt(t, rep, i);
    IndexOfFirst(t, rep);
  }

  /**
   * Gluing a non-empty text that shares no character with `pat` between two
   * texts that hold no occurrence of `pat` creates none.
   */
  lemma GlueNoOccurrence(x: string, rep: string, y: string, pat: string)
    requires |pat| > 0 && |rep| > 0
    requires forall c :: c in rep ==> c !in pat
    requires forall j :: !OccursAt(x, pat, j)
    requires forall j :: !OccursAt(y, pat, j)
    ensures forall j :: !OccursAt(x + rep + y, pat, j)
  {
    var r := x + rep + y;
    forall j | 0 <= j && j + |pat| <= |r|
      ensures !OccursAt(r, pat, j)
    {
      if j >= |x| + |rep| {
        assert r[j..j + |pat|] == y[j - |x| - |rep|..j - |x| - |rep| + |pat|];
        assert !OccursAt(y, pat, j - |x| - |rep|);
      } else if j + |pat| <= |x| {
        assert r[j..j + |pat|] == x[j..j + |pat|];
        assert !OccursAt(x, pat, j);
      } else {
        var m := if j >= |x| then j else |x|;
        var c := rep[m - |x|];
        assert c in rep;
        assert r[j..j + |pat|][m - j] == c;
        assert pat[m - j] in pat;
        assert r[j..j + |pat|][m - j] != pat[m - j];
      }
    }
  }

  /**
   * When the replacement is not empty and shares no character with the search
   * string, no occurrence of the search string is left afterwards.
   */
  lemma {:induction false} ReplaceAllRemoves(s: string, pat: string, rep: string)
    requires |pat| > 0 && |rep| > 0
    requires forall c :: c in rep ==> c !in pat
    ensures !Contains(ReplaceAll(s, pat, rep), pat)
    decreases |s|
  {
    var found := IndexOf(s, pat);
    if found.Some? {
      var i := found.value;
      var tail := s[i + |pat|..];
      ReplaceAllRemoves(tail, pat, rep);
      IndexOfFirst(s, pat);
      IndexOfFirst(ReplaceAll(tail, pat, rep), pat);
      NoOccurrenceBefore(s, pat, i);
      GlueNoOccurrence(s[..i], rep, ReplaceAll(tail, pat, rep), pat);
      ReplaceAllAt(s, pat, rep, i);
    }
  }

  /** A prefix that ends before the first occurrence holds none. */
  lemma NoOccurrenceBefore(s: string, pat: string, i: nat)
    requires |pat| > 0 && i <= |s|
    requires forall j :: 0 <= j < i ==> !OccursAt(s, pat, j)
    ensures forall j :: !OccursAt(s[..i], pat, j)
  {
    forall j | 0 <= j && j + |pat| <= i
      ensures !OccursAt(s[..i], pat, j)
    {
      assert s[..i][j..j + |pat|] == s[j..j + |pat|];
      assert !OccursAt(s, pat, j);
    }
  }

  /**
   * When no occurrence of `pat` starts inside `x`, the occurrence right after
   * `x` is the first: `x` is kept, that occurrence is replaced, and the text
   * after it is processed on its own.
   */
  lemma ReplaceAllAfter(x: string, y: string, pat: string, rep: string)
    requires |pat| > 0
    requires forall j :: 0 <= j < |x| ==> !OccursAt(x + pat + y, pat, j)
    ensures ReplaceAll(x + pat + y, pat, rep) == x + rep + ReplaceAll(y, pat, rep)
  {
    var s := x + pat + y;
    assert s[|x|..|x| + |pat|] == pat;
    IndexOfIsFirst(s, pat, |x|);
    assert s[..|x|] == x;
    assert s[|x| + |pat|..] == y;
    ReplaceAllAt(s, pat, rep, |x|);
  }

  /** `implode(sep, parts)`. */
  function Join(parts: seq<string>, sep: string): string
    decreases |parts|
  {
    if |parts| == 0 then ""
    else if |parts| == 1 then parts[0]
    else parts[0] + sep + Join(parts[1..], sep)
  }

  /**
   * `explode(d, s)`: the pieces of `s` between occurrences of `d`; there is
   * always at least one piece, no piece holds `d`, and joining the pieces
   * again with `d` gives back `s`.
   */
  function Split(s: string, d: char): (parts: seq<string>)
    ensures |parts| > 0
    ensures forall i :: 0 <= i < |parts| ==> d !in parts[i]
    ensures Join(parts, [d]) == s
    decreases |s|
  {
    if s == [] then [""]
    else
      var rest := Split(s[1..], d);
      if s[0] == d then
        assert s == [d] + s[1..];
        [""] + rest
      else
        var parts := [[s[0]] + rest[0]] + rest[1..];
        assert parts[1..] == rest[1..];
        assert s == [s[0]] + s[1..];
        parts
  }

  /** Exploding text that starts with the delimiter starts a new, empty piece. */
  lemma SplitAtDelimiter(x: string, d: char)
    ensures Split([d] + x, d) == [""] + Split(x, d)
  {
    assert ([d] + x)[1..] == x;
  }

  /** Exploding text that starts with another character extends the first piece. */
  lemma SplitAtOther(c: char, x: string, d: char)
    requires c != d
    ensures Split([c] + x, d) == [[c] + Split(x, d)[0]] + Split(x, d)[1..]
  {
    assert ([c] + x)[1..] == x;
  }

  /** Joining pieces whose first one is not empty starts with its first character. */
  lemma {:induction false} JoinFirstChar(parts: seq<string>, sep: string)
    requires |parts| > 0 && |parts[0]| > 0
    ensures Join(parts, sep) == [parts[0][0]] + Join([parts[0][1..]] + parts[1..], sep)
  {
    var shorter := [parts[0][1..]] + parts[1..];
    assert shorter[1..] == parts[1..];
    assert parts[0] == [parts[0][0]] + parts[0][1..];
  }

  /** Exploding a join of delimiter-free pieces gives the pieces back. */
  lemma {:induction false} SplitJoin(parts: seq<string>, d: char)
    requires |parts| > 0
    requires forall i :: 0 <= i < |parts| ==> d !in parts[i]
    ensures Split(Join(parts, [d]), d) == parts
    decreases |parts|, |parts[0]|
  {
    var p := parts[0];
    if p == [] {
      if |parts| > 1 {
        SplitJoin(parts[1..], d);
        assert Join(parts, [d]) == [d] + Join(parts[1..], [d]);
        SplitAtDelimiter(Join(parts[1..], [d]), d);
        assert parts == [""] + parts[1..];
      }
    } else {
      var shorter := [p[1..]] + parts[1..];
      assert shorter[1..] == parts[1..];
      assert p[0] in p;
      assert forall i :: 0 <= i < |shorter| ==> d !in shorter[i] by {
        forall i | 0 <= i < |shorter| ensures d !in shorter[i] {
          if i == 0 {
            assert forall c :: c in p[1..] ==> c in p;
          } else {
            assert shorter[i] == parts[i];
          }
        }
      }
      SplitJoin(shorter, d);
      JoinFirstChar(parts, [d]);
      SplitAtOther(p[0], Join(shorter, [d]), d);
      assert p == [p[0]] + p[1..];
      assert parts == [[p[0]] + shorter[0]] + shorter[1..];
    }
  }
}
